=== FILE: README.md ===
# Sandboxed directory lister

A Dafny model of the filesystem primitive `list_files` of the Capture the Flag MCP
server. The lister takes a path string, or `None`. It resolves the path the way
`Path(path).resolve()` does: relative input is taken from the working directory,
`.` and `..` are collapsed, and every symlink is followed. It then refuses
anything whose resolved string does not begin with the home directory string. It
refuses a path that does not exist, and then one that is not a directory. Otherwise
it collects the names of the directory's immediate entries and returns them
sorted. Every failure leaves the call as a `ValueError`, or as a `PermissionError`
for a permission failure.

The model has four modules:

- `Paths` (`paths.dfy`): absolute paths as sequences of components. It defines the
  string `str()` prints for a path, `str.split('/')`, and the raw string-prefix
  containment test. It proves exactly which paths that test accepts.
- `Filesystem` (`filesystem.dfy`): an immutable filesystem, a map from paths to
  `Dir(entries, readable)`, `File` or `Symlink(target)`. It also defines
  resolution (`Walk`, `Resolve`) and proves that resolution yields canonical paths
  and reads only the symlinks.
- `Names` (`names.dfy`): Python's order on strings and the sort that
  `contents.sort()` performs. It proves that a sorted arrangement is unique, so
  the output does not depend on the order in which the directory was enumerated.
- `Tools` (`tools.dfy`): the lister. `Locate` is resolution followed by the three
  checks in their fixed order. `Rewrap` models the two `except` clauses.
  `Expected` is the outcome of a whole call. The method `ListFiles` builds the list
  in a loop and then sorts it; it is proved to return `Expected`. Lemmas state the
  guarantees of the docstring at server/tools.py:22-37 and the scenarios of the
  test suite.

`HOME_DIR` is a parameter `home`, fixed for the call. The current working
directory is a parameter `cwd`. Lemmas that need a canonical `cwd`, as `getcwd()`
returns, require that it holds no symlinks. The filesystem is a value, so a call
cannot change it.

Resolution follows `Path.resolve()` as Python 3.9 implements it: every link is
resolved as it is met, and a symlink loop raises an error that is re-raised as a
`ValueError`.

Two consequences of the code deserve a note.

- The containment test at server/tools.py:43 is a raw string prefix, so
  `/home/userX` also admits `/home/userXY`. `Paths.IsDescendant` is the
  component-wise test. `Paths.AcceptsIff` states exactly what the raw test
  accepts. `Paths.SiblingWithinHome`, `Paths.SiblingExample` and
  `Tools.SiblingListed` show the gap: a sibling directory is listed.
- `""` resolves to the working directory and is listed like ".". `None` fails
  inside `Path()` with a `TypeError`, which is re-raised as a `ValueError`.

## Model

| member | source | states |
|---|---|---|
| `Paths.Str` | server/tools.py:43-51 | the string `str()` gives a path: "/" for the root, otherwise "/" before each component; it always begins with '/' |
| `Paths.WithinHome` | server/tools.py:43 | the containment test: the resolved path's string begins with home's string, compared as raw text |
| `Paths.Split` | server/tools.py:40 | splitting a path string gives at least one piece, no piece contains '/', and there is exactly one piece iff the string has no '/' |
| `Paths.JoinSplit` | server/tools.py:40 | joining the pieces of a split with '/' gives the string back, so the pieces are exactly the text between slashes |
| `Paths.SplitJoin` | server/tools.py:40 | the other round trip: splitting the '/'-join of slash-free pieces gives the pieces back |
| `Paths.SplitStr` | server/tools.py:40-43 | round trip: splitting `str(p)` gives an empty piece followed by the components of `p` |
| `Paths.DescendantWithinHome` | server/tools.py:43 | every component-wise descendant of home passes the prefix test (no false refusals) |
| `Paths.CatPrefix` | server/tools.py:43 | one path string is a string prefix of another iff the paths agree on all components but the first path's last, and there the component merely begins with it |
| `Paths.AcceptsIff` | server/tools.py:43 | the prefix test accepts a canonical path iff home is "/", or the path agrees with home on all components but home's last and its component there begins with home's last |
| `Paths.SiblingWithinHome` | server/tools.py:43 | a sibling whose last name extends home's last name passes the test although it is not a descendant |
| `Paths.SiblingExample` | server/tools.py:43 | with home "/home/userX", "/home/userX2" passes the test and is not inside home |
| `Filesystem.Walk` | server/tools.py:40 | resolves pieces from a canonical base: "" and "." are skipped; ".." takes the parent of what is resolved so far and stays at the root; a plain name is appended; a symlink is replaced by its target, an absolute target taken from the root and a relative one from the link's directory; more than 40 nested links is a loop |
| `Filesystem.Resolve` | server/tools.py:40 | `Path(path).resolve()`: an absolute input starts from the root, a relative one from the working directory; its '/'-separated pieces are walked with the full bound of 40 links |
| `Filesystem.WalkCanonical` | server/tools.py:40 | resolving from a canonical base yields a path of plain names with no symlink on any prefix |
| `Filesystem.ResolveCanonical` | server/tools.py:40 | the same for a whole input resolved from a canonical working directory: the containment test sees the path after `..` and all links are resolved |
| `Filesystem.WalkReadsOnlyLinks` | server/tools.py:40 | two filesystems with the same symlinks resolve every input identically |
| `Filesystem.WalkPlain` | server/tools.py:40 | walking plain names through a symlink-free path just appends them |
| `Filesystem.WalkDots` | server/tools.py:40 | each ".." climbs one level and stays at the root |
| `Filesystem.ResolveStrFrom` | server/tools.py:40 | resolving `str(p)` followed by more pieces walks those pieces from the canonical `p` |
| `Filesystem.ResolveStr` | server/tools.py:40 | round trip: `str(p)` of a canonical path resolves back to `p` |
| `Filesystem.RootString` | server/tools.py:40 | "/" resolves to the root |
| `Filesystem.DotString` | server/tools.py:40 | "." and "" resolve to the working directory |
| `Names.Le` | server/tools.py:59 | the order `contents.sort()` uses: code point by code point at the first difference, and a proper prefix first |
| `Names.LeTotal` | server/tools.py:59 | any two names are comparable in Python's string order |
| `Names.LeReflexive` | server/tools.py:59 | every name sorts before or equal to itself |
| `Names.LeAntisymmetric` | server/tools.py:59 | names that sort both ways are equal |
| `Names.LeTransitive` | server/tools.py:59 | the string order is transitive |
| `Names.Insert` | server/tools.py:59 | inserting into a sorted list keeps it sorted and adds exactly that name |
| `Names.SortedNames` | server/tools.py:59 | the sorted list is sorted and a permutation of the input |
| `Names.SortedUnique` | server/tools.py:58-59 | two sorted permutations of the same names are equal |
| `Names.OrderIndependent` | server/tools.py:58-59 | the output is the same whatever order the directory enumeration returned |
| `Names.NoDuplicatesFromCounts` | server/tools.py:53-56 | a list in which no name occurs twice has distinct elements at distinct positions |
| `Tools.Display` | server/tools.py:64-66 | the `{path}` of the f-strings: the string itself, or "None" |
| `Tools.Unreadable` | server/tools.py:55 | the `PermissionError` that enumerating an unreadable directory raises |
| `Tools.Admitted` | server/tools.py:43-51 | the three checks on the resolved path, in their order: passes the prefix test, exists, is a directory |
| `Tools.Rewrap` | server/tools.py:63-66 | a permission failure becomes `PermissionError("Permission denied accessing: " + path)`; any other failure becomes a `ValueError` that starts "Error listing directory " + path and ends with the inner message; never a success |
| `Tools.RewrapKeepsMessage` | server/tools.py:65-66 | the inner `ValueError` message survives as a substring of the re-raised one |
| `Tools.Locate` | server/tools.py:40-51 | a path is handed on for listing iff the input is a string whose resolution succeeds, passes the home prefix test, exists and is a directory; the path handed on is that resolution; `None` raises a `TypeError` |
| `Tools.AdmittedListed` | server/tools.py:40-61 | a string resolving to a readable directory that passes all three checks is listed: its entries, sorted |
| `Tools.Expected` | server/tools.py:21-66 | a call succeeds iff the checks pass and the directory is readable; on success the names are sorted and a permutation of the entries; every `ValueError` names the input; `None` ends as a `ValueError` |
| `Tools.ListFiles` | server/tools.py:53-61 | the loop that collects the entries followed by the sort returns exactly the outcome `Expected` describes |
| `Tools.ChildrenOfDirectory` | server/tools.py:53-56 | in a well-formed filesystem, a permutation of a directory's entries holds exactly the names of its immediate children, each once |
| `Tools.ListingIsExactChildren` | server/tools.py:53-56 | on success the result holds exactly the immediate children of the resolved directory, each once, nothing recursed into |
| `Tools.OutsideHomeRejected` | server/tools.py:43-44 | a resolved path that fails the prefix test ends as a `ValueError` mentioning "Path must be within home directory", whether or not it exists |
| `Tools.OutsideRevealsNothing` | server/tools.py:43-51 | for an input resolving outside home, the outcome does not depend on which entries exist or what they are |
| `Tools.MissingRejected` | server/tools.py:47-48 | an in-home resolved path that does not exist ends as a `ValueError` mentioning "Path does not exist" |
| `Tools.NotADirectoryRejected` | server/tools.py:50-51 | an in-home existing non-directory ends as a `ValueError` mentioning "Path is not a directory" |
| `Tools.UnreadableRejected` | server/tools.py:63-64 | an in-home directory that cannot be enumerated ends as `PermissionError("Permission denied accessing: " + path)` |
| `Tools.SymlinkToRootRejected` | tests/server/test_list_files.py:125-136 | a symlink inside home pointing at "/" is refused with the containment message |
| `Tools.HomeListed` | tests/server/test_list_files.py:18-30 | `str(HOME_DIR)` of a canonical readable home lists home's entries, sorted |
| `Tools.DotListsWorkingDirectory` | tests/server/test_list_files.py:96-110 | with the working directory at a canonical home, "." and "" list home's entries, sorted |
| `Tools.TraversalRejected` | tests/server/test_list_files.py:112-123 | `str(HOME_DIR)` followed by enough "/.." to climb above home, then a shorter path, is refused with the containment message |
| `Tools.ParentEntryString` | tests/server/test_list_files.py:118 | `str(HOME_DIR) + "/../" + n` is the string of the path home, "..", n |
| `Tools.ParentEntryTraversal` | tests/server/test_list_files.py:118 | `str(HOME_DIR) + "/../" + n` resolves to the entry n beside home; the prefix test accepts it iff n begins with home's last name, and otherwise the call fails with the containment message |
| `Tools.RootHomeTraversalListed` | tests/server/test_list_files.py:118 | with HOME_DIR at "/root", `str(HOME_DIR) + "/../root"` is listed as home itself |
| `Tools.SiblingListed` | server/tools.py:43 | a sibling directory whose name extends home's last name is listed, although it is not inside home |
| `Tools.LinkedHomeRefuses` | server/tools.py:43 | a path with no symlink on any prefix never passes the prefix test against a home one of whose proper prefixes is a symlink |
| `Tools.LinkedHomeRefusesAll` | server/tools.py:18 | because `Path.home()` is not resolved, a home below a symlinked directory refuses every input, `str(HOME_DIR)` included |
| `Tools.FoundIsCanonical` | server/tools.py:40-51 | a path handed on for listing contains no symlink, when the working directory is canonical |

## Left out

- The FastMCP instance and the `@mcp.tool` wrapper (server/tools.py:14-15, 73-91) only delegate to the lister. server/main.py and client/main.py are process start-up, transport and LLM orchestration. None of them is part of this model.
- `get_file` and `explain_file` have no implementation in server/tools.py, so they are not part of this model.
- `Filesystem.Walk`: symlink loops are caught by a bound of 40 nested links, not by the record of links already seen that Python 3.9 keeps. A chain of links nested more than 40 deep is refused here although Python would resolve it. The text of the resulting "Symlink loop" message is approximated.
- `Filesystem.Walk`: Python 3.10 to 3.12 do not raise on a loop in non-strict `resolve()`. They keep the rest of the path unresolved and collapse its ".." as text, and raise only if the final `stat()` reports a loop. So an input such as "/h/a/../d", with /h/a a link to itself, resolves to /h/d there, while this model refuses it as a loop. From 3.13 no loop raises at all. The model follows Python 3.9.
- `Tools.Locate`: permission failures while resolving, or inside `exists()` and `is_dir()` (an unsearchable ancestor), are not modelled. Only enumerating an unreadable directory raises `PermissionError`.
- Input strings containing a NUL character, which make Python raise its own `ValueError`, are not modelled.
- The `TypeError` text for a `None` argument differs between Python versions. The model uses one wording; only the wrapping into `ValueError` is relied on.
- The race between resolving, checking and listing is not modelled: the filesystem is an immutable value for the whole call.
- How `HOME_DIR` and the working directory are obtained from the environment is not modelled. Both are parameters.
- Byte-string paths and Windows path syntax are not modelled.

## Findings

| source | as written | input that shows it | evidently intended | confidence | as-written member | corrected member |
|---|---|---|---|---|---|---|
| tests/server/test_list_files.py:118 | expects `str(HOME_DIR) + "/../root"` to be refused as outside home | HOME_DIR = /root (the suite running as root): the path resolves to /root, which is home, and is listed; with any home whose last name is a prefix of "root", such as /home/r, /home/root passes the prefix test too | an attempt that leaves home names an entry beside home that does not begin with home's last name, and is refused | not executed | `Tools.RootHomeTraversalListed` | `Tools.ParentEntryTraversal` |
| server/tools.py:18 | `HOME_DIR = Path.home()` is compared unresolved against resolved paths | /home a symlink to /usr/home and HOME=/home/u: every input resolves under /usr/home and is refused, `str(HOME_DIR)` included | `HOME_DIR` resolved like the paths it is compared with, so that home itself is listed | not executed | `Tools.LinkedHomeRefusesAll` | `Tools.HomeListed` |

=== FILE: filesystem.dfy ===
/** An immutable filesystem and the resolution of a raw path string against it,
    as `Path(path).resolve()` does in its non-strict form: relative input is taken
    from the working directory, "." and empty pieces are skipped, ".." goes to
    the parent of what is resolved so far, and every symlink met on the way
    (the last component included) is replaced by its target. */
module Filesystem {
  import opened Paths

  /** A directory lists its entries in the order the operating system returns
      them; `readable` says whether this process may enumerate them. */
  datatype Node = Dir(entries: seq<string>, readable: bool) | File | Symlink(target: string)

  type FileSystem = map<Path, Node>

  /** The result of resolution: a canonical path, or the link at which the
      nesting of symlinks exceeded the bound (a loop, in practice). */
  datatype Resolution = Resolved(path: Path) | SymlinkLoop(at: Path)

  /** How deeply symlinks may nest before resolution gives up (MAXSYMLINKS on Linux). */
  const MaxSymlinkDepth: nat := 40

  predicate IsLink(fs: FileSystem, p: Path) {
    p in fs && fs[p].Symlink?
  }

  /** The invariants every real directory tree keeps: the root is a directory,
      no directory lists a name twice, every listed name exists, and every
      entry other than the root is listed by its parent directory. */
  ghost predicate WellFormed(fs: FileSystem) {
    && [] in fs && fs[[]].Dir?
    && (forall p, n | p in fs && fs[p].Dir? :: multiset(fs[p].entries)[n] <= 1)
    && (forall p, n | p in fs && fs[p].Dir? && n in fs[p].entries :: p + [n] in fs)
    && (forall q | q in fs && q != [] ::
          Parent(q) in fs && fs[Parent(q)].Dir? && q[|q| - 1] in fs[Parent(q)].entries)
  }

  /** No prefix of `p`, the root included, is a symlink. */
  ghost predicate SymlinkFree(fs: FileSystem, p: Path) {
    forall k | 0 <= k <= |p| :: !IsLink(fs, p[..k])
  }

  /** Two filesystems that have the same symlinks with the same targets; they
      may differ in which other entries exist. */
  ghost predicate SameLinks(fs: FileSystem, fs': FileSystem) {
    && (forall p :: IsLink(fs, p) <==> IsLink(fs', p))
    && (forall p | IsLink(fs, p) :: fs[p].target == fs'[p].target)
  }

  function Parent(p: Path): Path {
    if p == [] then [] else p[..|p| - 1]
  }

  /** Resolve the pieces `comps` starting from the already canonical `base`. */
  function Walk(fs: FileSystem, base: Path, comps: seq<string>, fuel: nat): Resolution
    decreases fuel, |comps|
  {
    if comps == [] then Resolved(base)
    else
      var name := comps[0];
      if name == "" || name == "." then Walk(fs, base, comps[1..], fuel)
      else if name == ".." then Walk(fs, Parent(base), comps[1..], fuel)
      else
        var next := base + [name];
        if !IsLink(fs, next) then Walk(fs, next, comps[1..], fuel)
        else if fuel == 0 then SymlinkLoop(next)
        else
          var target := fs[next].target;
          match Walk(fs, if IsAbsolute(target) then [] else base, Split(target), fuel - 1)
          case SymlinkLoop(at) => SymlinkLoop(at)
          case Resolved(p) => Walk(fs, p, comps[1..], fuel)
  }

  /** `Path(raw).resolve()` with `cwd` as the current working directory. */
  function Resolve(fs: FileSystem, cwd: Path, raw: string): Resolution {
    Walk(fs, if IsAbsolute(raw) then [] else cwd, Split(raw), MaxSymlinkDepth)
  }

  /** `n` copies of "..". */
  function Dots(n: nat): (s: seq<string>)
    ensures |s| == n && forall i | 0 <= i < n :: s[i] == ".."
  {
    if n == 0 then [] else [".."] + Dots(n - 1)
  }

  /** `p` with its last `n` components removed, stopping at the root. */
  function Up(p: Path, n: nat): Path {
    if n >= |p| then [] else p[..|p| - n]
  }

  lemma SymlinkFreeParent(fs: FileSystem, p: Path)
    requires SymlinkFree(fs, p)
    ensures SymlinkFree(fs, Parent(p))
  {
    forall k | 0 <= k <= |Parent(p)|
      ensures !IsLink(fs, Parent(p)[..k])
    {
      assert Parent(p)[..k] == p[..k];
    }
  }

  lemma SymlinkFreeAppend(fs: FileSystem, p: Path, name: string)
    requires SymlinkFree(fs, p) && !IsLink(fs, p + [name])
    ensures SymlinkFree(fs, p + [name])
  {
    forall k | 0 <= k <= |p| + 1
      ensures !IsLink(fs, (p + [name])[..k])
    {
      if k <= |p| {
        assert (p + [name])[..k] == p[..k];
      } else {
        assert (p + [name])[..k] == p + [name];
      }
    }
  }

  /** Resolution only ever produces canonical paths: every component a plain
      name and no prefix a symlink, so the containment test that follows sees
      the path after `..` and every link have been resolved. */
  lemma {:induction false} WalkCanonical(fs: FileSystem, base: Path, comps: seq<string>, fuel: nat)
    requires !IsLink(fs, [])
    requires SymlinkFree(fs, base) && PlainPath(base) && SlashFree(comps)
    ensures Walk(fs, base, comps, fuel).Resolved? ==>
      SymlinkFree(fs, Walk(fs, base, comps, fuel).path) &&
      PlainPath(Walk(fs, base, comps, fuel).path)
    decreases fuel, |comps|
  {
    if comps != [] {
      var name := comps[0];
      if name == "" || name == "." {
        WalkCanonical(fs, base, comps[1..], fuel);
      } else if name == ".." {
        SymlinkFreeParent(fs, base);
        WalkCanonical(fs, Parent(base), comps[1..], fuel);
      } else {
        var next := base + [name];
        if !IsLink(fs, next) {
          SymlinkFreeAppend(fs, base, name);
          WalkCanonical(fs, next, comps[1..], fuel);
        } else if fuel > 0 {
          var target := fs[next].target;
          var start := if IsAbsolute(target) then [] else base;
          WalkCanonical(fs, start, Split(target), fuel - 1);
          var inner := Walk(fs, start, Split(target), fuel - 1);
          if inner.Resolved? {
            WalkCanonical(fs, inner.path, comps[1..], fuel);
          }
        }
      }
    }
  }

  /** The same for a whole raw input, resolved from a canonical working directory. */
  lemma ResolveCanonical(fs: FileSystem, cwd: Path, raw: string)
    requires !IsLink(fs, []) && SymlinkFree(fs, cwd) && PlainPath(cwd)
    ensures Resolve(fs, cwd, raw).Resolved? ==>
      SymlinkFree(fs, Resolve(fs, cwd, raw).path) && PlainPath(Resolve(fs, cwd, raw).path)
  {
    WalkCanonical(fs, if IsAbsolute(raw) then [] else cwd, Split(raw), MaxSymlinkDepth);
  }

  /** Resolution reads only the symlinks: which other entries exist, and what
      they are, cannot change where a path resolves to. */
  lemma {:induction false} WalkReadsOnlyLinks(fs: FileSystem, fs': FileSystem, base: Path, comps: seq<string>, fuel: nat)
    requires SameLinks(fs, fs')
    ensures Walk(fs, base, comps, fuel) == Walk(fs', base, comps, fuel)
    decreases fuel, |comps|
  {
    if comps != [] {
      var name := comps[0];
      if name == "" || name == "." {
        WalkReadsOnlyLinks(fs, fs', base, comps[1..], fuel);
      } else if name == ".." {
        WalkReadsOnlyLinks(fs, fs', Parent(base), comps[1..], fuel);
      } else {
        var next := base + [name];
        assert IsLink(fs, next) <==> IsLink(fs', next);
        if !IsLink(fs, next) {
          WalkReadsOnlyLinks(fs, fs', next, comps[1..], fuel);
        } else if fuel > 0 {
          var target := fs[next].target;
          assert fs'[next].target == target;
          var start := if IsAbsolute(target) then [] else base;
          WalkReadsOnlyLinks(fs, fs', start, Split(target), fuel - 1);
          var inner := Walk(fs, start, Split(target), fuel - 1);
          if inner.Resolved? {
            WalkReadsOnlyLinks(fs, fs', inner.path, comps[1..], fuel);
          }
        }
      }
    }
  }

  /** Walking plain names through a path with no symlinks just appends them. */
  lemma {:induction false} WalkPlain(fs: FileSystem, base: Path, p: Path, rest: seq<string>, fuel: nat)
    requires PlainPath(p) && SymlinkFree(fs, base + p)
    ensures Walk(fs, base, p + rest, fuel) == Walk(fs, base + p, rest, fuel)
    decreases |p|
  {
    if p != [] {
      var next := base + [p[0]];
      assert (p + rest)[0] == p[0] && (p + rest)[1..] == p[1..] + rest;
      assert PlainName(p[0]);
      assert next == (base + p)[..|base| + 1];
      assert next + p[1..] == base + p;
      WalkPlain(fs, next, p[1..], rest, fuel);
    } else {
      assert p + rest == rest && base + p == base;
    }
  }

  /** Each ".." climbs one level, and at the root stays there. */
  lemma {:induction false} WalkDots(fs: FileSystem, base: Path, n: nat, rest: seq<string>, fuel: nat)
    ensures Walk(fs, base, Dots(n) + rest, fuel) == Walk(fs, Up(base, n), rest, fuel)
    decreases n
  {
    if n == 0 {
      assert Dots(n) + rest == rest;
      assert Up(base, n) == base;
    } else {
      var comps := Dots(n) + rest;
      assert comps[0] == ".." && comps[1..] == Dots(n - 1) + rest;
      WalkDots(fs, Parent(base), n - 1, rest, fuel);
      assert Up(Parent(base), n - 1) == Up(base, n);
    }
  }

  /** Resolving `str(p)` of a canonical path `p` followed by further pieces
      walks those pieces from `p`. */
  lemma ResolveStrFrom(fs: FileSystem, cwd: Path, p: Path, rest: seq<string>)
    requires PlainPath(p) && SymlinkFree(fs, p) && SlashFree(rest) && p + rest != []
    ensures Resolve(fs, cwd, Str(p + rest)) == Walk(fs, p, rest, MaxSymlinkDepth)
  {
    assert SlashFree(p + rest) by {
      forall i | 0 <= i < |p + rest| ensures '/' !in (p + rest)[i] {
        if i < |p| { assert (p + rest)[i] == p[i] && PlainName(p[i]); }
        else { assert (p + rest)[i] == rest[i - |p|]; }
      }
    }
    SplitStr(p + rest);
    var comps := [""] + (p + rest);
    assert Resolve(fs, cwd, Str(p + rest)) == Walk(fs, [], comps, MaxSymlinkDepth);
    assert comps[0] == "" && comps[1..] == p + rest;
    assert [] + p == p;
    WalkPlain(fs, [], p, rest, MaxSymlinkDepth);
  }

  /** Round trip: resolving the string of a canonical path gives the path back. */
  lemma ResolveStr(fs: FileSystem, cwd: Path, p: Path)
    requires PlainPath(p) && SymlinkFree(fs, p)
    ensures Resolve(fs, cwd, Str(p)) == Resolved(p)
  {
    if p == [] {
      RootString(fs, cwd);
    } else {
      assert p + [] == p;
      ResolveStrFrom(fs, cwd, p, []);
    }
  }

  /** "/" resolves to the root from anywhere. */
  lemma RootString(fs: FileSystem, base: Path)
    ensures Split("/") == ["", ""]
    ensures Resolve(fs, base, "/") == Resolved([])
    ensures forall fuel: nat :: Walk(fs, [], Split("/"), fuel) == Resolved([])
  {
    var s := "/";
    assert s[0] == '/' && s[1..] == "";
    assert Split(s) == [""] + Split(s[1..]);
    assert Split("") == [""];
    assert Split(s) == ["", ""];
    assert IsAbsolute(s);
    forall fuel: nat
      ensures Walk(fs, [], ["", ""], fuel) == Resolved([])
    {
      var comps := ["", ""];
      assert comps[0] == "" && comps[1..] == [""];
      assert [""][0] == "" && [""][1..] == [];
      assert Walk(fs, [], [""], fuel) == Walk(fs, [], [], fuel);
    }
  }

  /** "." and "" resolve to the working directory. */
  lemma DotString(fs: FileSystem, cwd: Path, raw: string)
    requires raw == "." || raw == ""
    ensures Resolve(fs, cwd, raw) == Resolved(cwd)
  {
    if raw == "." {
      assert raw[0] == '.' && raw[1..] == "";
      assert Split("") == [""];
      assert [raw[0]] + "" == ".";
      assert Split(raw) == [[raw[0]] + Split(raw[1..])[0]] + Split(raw[1..])[1..];
      assert Split(raw) == ["."];
      assert ["."][1..] == [];
    } else {
      assert Split(raw) == [""];
      assert [""][1..] == [];
    }
  }
}

=== FILE: names.dfy ===
/** The order Python's `list.sort()` puts strings in (code point by code point,
    a proper prefix first), and the sort of a list of names in that order. */
module Names {

  /** `a <= b` on Python strings. */
  predicate Le(a: string, b: string) {
    if a == [] then true
    else if b == [] then false
    else if a[0] != b[0] then a[0] < b[0]
    else Le(a[1..], b[1..])
  }

  lemma {:induction false} LeTotal(a: string, b: string)
    ensures Le(a, b) || Le(b, a)
  {
    if a != [] && b != [] && a[0] == b[0] {
      LeTotal(a[1..], b[1..]);
    }
  }

  lemma {:induction false} LeReflexive(a: string)
    ensures Le(a, a)
  {
    if a != [] {
      LeReflexive(a[1..]);
    }
  }

  lemma {:induction false} LeAntisymmetric(a: string, b: string)
    requires Le(a, b) && Le(b, a)
    ensures a == b
  {
    if a != [] && b != [] {
      LeAntisymmetric(a[1..], b[1..]);
      assert a == [a[0]] + a[1..] && b == [b[0]] + b[1..];
    }
  }

  lemma {:induction false} LeTransitive(a: string, b: string, c: string)
    requires Le(a, b) && Le(b, c)
    ensures Le(a, c)
  {
    if a != [] && b != [] && c != [] && a[0] == b[0] == c[0] {
      LeTransitive(a[1..], b[1..], c[1..]);
    }
  }

  predicate Sorted(s: seq<string>) {
    forall i, j | 0 <= i < j < |s| :: Le(s[i], s[j])
  }

  predicate NoDuplicates(s: seq<string>) {
    forall i, j | 0 <= i < j < |s| :: s[i] != s[j]
  }

  /** A name that sorts before every name of a sorted list may go in front of it. */
  lemma SortedCons(x: string, s: seq<string>)
    requires Sorted(s)
    requires forall j | 0 <= j < |s| :: Le(x, s[j])
    ensures Sorted([x] + s)
  {
  }

  /** Every element of `t` is `x` or an element of `s`, and `lo` sorts before all of them. */
  lemma BoundsAll(lo: string, x: string, s: seq<string>, t: seq<string>)
    requires multiset(t) == multiset(s) + multiset{x}
    requires Le(lo, x)
    requires forall j | 0 <= j < |s| :: Le(lo, s[j])
    ensures forall j | 0 <= j < |t| :: Le(lo, t[j])
  {
    forall j | 0 <= j < |t|
      ensures Le(lo, t[j])
    {
      assert t[j] in multiset(t);
      if t[j] != x {
        assert t[j] in multiset(s);
        var k :| 0 <= k < |s| && s[k] == t[j];
      }
    }
  }

  /** Put `x` into the sorted `s` after every name that sorts before it. */
  function Insert(x: string, s: seq<string>): (r: seq<string>)
    requires Sorted(s)
    ensures Sorted(r)
    ensures multiset(r) == multiset(s) + multiset{x}
  {
    if s == [] || Le(x, s[0]) then
      assert forall j | 0 <= j < |s| :: Le(x, s[j]) by {
        forall j | 0 <= j < |s| ensures Le(x, s[j]) {
          if j > 0 { LeTransitive(x, s[0], s[j]); }
        }
      }
      SortedCons(x, s);
      [x] + s
    else
      var tail := Insert(x, s[1..]);
      assert s == [s[0]] + s[1..];
      LeTotal(x, s[0]);
      BoundsAll(s[0], x, s[1..], tail);
      SortedCons(s[0], tail);
      [s[0]] + tail
  }

  /** The names of `s`, sorted: the value `contents.sort()` leaves in the list. */
  function SortedNames(s: seq<string>): (r: seq<string>)
    ensures Sorted(r)
    ensures multiset(r) == multiset(s)
  {
    if s == [] then []
    else
      assert s == [s[0]] + s[1..];
      Insert(s[0], SortedNames(s[1..]))
  }

  lemma SortedTail(a: seq<string>)
    requires Sorted(a) && a != []
    ensures Sorted(a[1..])
  {
  }

  lemma TailMultiset(a: seq<string>)
    requires a != []
    ensures multiset(a[1..]) == multiset(a) - multiset{a[0]}
  {
    assert a == [a[0]] + a[1..];
  }

  /** The first name of a sorted list sorts before every name in it. */
  lemma HeadIsLeast(a: seq<string>, y: string)
    requires Sorted(a) && y in multiset(a)
    ensures Le(a[0], y)
  {
    var k :| 0 <= k < |a| && a[k] == y;
    if k == 0 {
      LeReflexive(y);
    }
  }

  /** A sorted arrangement of given names is unique. */
  lemma {:induction false} SortedUnique(a: seq<string>, b: seq<string>)
    requires Sorted(a) && Sorted(b) && multiset(a) == multiset(b)
    ensures a == b
    decreases |a|
  {
    if a == [] {
      assert |multiset(b)| == 0;
    } else {
      assert a[0] in multiset(a) && |b| == |a|;
      assert b[0] in multiset(b);
      HeadIsLeast(a, b[0]);
      HeadIsLeast(b, a[0]);
      LeAntisymmetric(a[0], b[0]);
      TailMultiset(a);
      TailMultiset(b);
      SortedTail(a);
      SortedTail(b);
      SortedUnique(a[1..], b[1..]);
      assert a == [a[0]] + a[1..] && b == [b[0]] + b[1..];
    }
  }

  /** Sorting makes the result independent of the order the entries came in. */
  lemma OrderIndependent(a: seq<string>, b: seq<string>)
    requires multiset(a) == multiset(b)
    ensures SortedNames(a) == SortedNames(b)
  {
    SortedUnique(SortedNames(a), SortedNames(b));
  }

  /** Names that occur at most once keep doing so in any rearrangement. */
  lemma NoDuplicatesFromCounts(s: seq<string>)
    requires forall n :: multiset(s)[n] <= 1
    ensures NoDuplicates(s)
  {
    forall i, j | 0 <= i < j < |s|
      ensures s[i] != s[j]
    {
      assert s == s[..j] + s[j..];
      assert s[i] in multiset(s[..j]);
      assert s[j] in multiset(s[j..]);
      assert multiset(s)[s[j]] == multiset(s[..j])[s[j]] + multiset(s[j..])[s[j]];
    }
  }
}

=== FILE: paths.dfy ===
/** Absolute paths as sequences of components, their string form as `str(Path)`
    prints it, splitting a raw path string on '/', and the raw string-prefix
    containment test that guards the directory lister. */
module Paths {

  /** An absolute path: the components after the leading '/'. `[]` is "/". */
  type Path = seq<string>

  /** A component a canonical path can hold: not empty, not "." or "..", no '/'. */
  predicate PlainName(n: string) {
    n != "" && n != "." && n != ".." && '/' !in n
  }

  predicate PlainPath(p: Path) {
    forall i | 0 <= i < |p| :: PlainName(p[i])
  }

  predicate SlashFree(parts: seq<string>) {
    forall i | 0 <= i < |parts| :: '/' !in parts[i]
  }

  /** "/c1/c2/.../ck"; the empty string for the empty sequence. */
  function Cat(p: Path): string {
    if p == [] then "" else "/" + p[0] + Cat(p[1..])
  }

  /** `str()` of an absolute path: "/" for the root, "/c1/.../ck" otherwise. */
  function Str(p: Path): (s: string)
    ensures |s| > 0 && s[0] == '/'
  {
    if p == [] then "/" else Cat(p)
  }

  predicate IsAbsolute(raw: string) {
    |raw| > 0 && raw[0] == '/'
  }

  /** `'/'.join(parts)`. */
  function Join(parts: seq<string>): string
    requires |parts| >= 1
  {
    if |parts| == 1 then parts[0] else parts[0] + "/" + Join(parts[1..])
  }

  /** `raw.split('/')`: the pieces between slashes, empty pieces included. */
  function Split(s: string): (parts: seq<string>)
    ensures |parts| >= 1
    ensures SlashFree(parts)
    ensures |parts| == 1 <==> '/' !in s
  {
    if s == [] then [""]
    else
      var rest := Split(s[1..]);
      if s[0] == '/' then [""] + rest
      else [[s[0]] + rest[0]] + rest[1..]
  }

  /** Joining the pieces of a split with '/' gives the string back. */
  lemma {:induction false} JoinSplit(s: string)
    ensures Join(Split(s)) == s
  {
    if s != [] {
      var rest := Split(s[1..]);
      JoinSplit(s[1..]);
      if s[0] == '/' {
        JoinSlash(rest);
        assert s == "/" + s[1..];
      } else {
        JoinGlue(s[0], rest);
        assert s == [s[0]] + s[1..];
      }
    }
  }

  /* `JoinSlash` and `JoinGlue` are the two steps of `JoinSplit`, stated apart so
     that each is proved away from the unfolding of `Split`; inside `JoinSplit`
     the solver loops on them. */
  lemma JoinSlash(rest: seq<string>)
    requires |rest| >= 1
    ensures Join([""] + rest) == "/" + Join(rest)
  {
    assert ([""] + rest)[1..] == rest;
  }

  lemma JoinGlue(c: char, rest: seq<string>)
    requires |rest| >= 1
    ensures Join([[c] + rest[0]] + rest[1..]) == [c] + Join(rest)
  {}

  predicate StartsWith(s: string, prefix: string) {
    prefix <= s
  }

  /** The containment test of the lister: a raw prefix test on the two strings,
      not a comparison of components. */
  predicate WithinHome(target: Path, home: Path) {
    StartsWith(Str(target), Str(home))
  }

  /** Component-wise containment: `target` is `home` or lies below it. */
  predicate IsDescendant(target: Path, home: Path) {
    home <= target
  }

  lemma {:induction false} CatAppend(p: Path, q: Path)
    ensures Cat(p + q) == Cat(p) + Cat(q)
  {
    if p == [] {
      assert p + q == q;
    } else {
      assert (p + q)[0] == p[0];
      assert (p + q)[1..] == p[1..] + q;
      CatAppend(p[1..], q);
    }
  }

  /** Splitting a slash-free prefix glues it onto the first piece. */
  lemma {:induction false} SplitSlashFreePrefix(c: string, t: string)
    requires '/' !in c
    ensures Split(c + t) == [c + Split(t)[0]] + Split(t)[1..]
  {
    if c == [] {
      assert c + t == t;
      assert c + Split(t)[0] == Split(t)[0];
      assert Split(t) == [Split(t)[0]] + Split(t)[1..];
    } else {
      assert (c + t)[0] == c[0];
      assert (c + t)[1..] == c[1..] + t;
      SplitSlashFreePrefix(c[1..], t);
      assert [c[0]] + (c[1..] + Split(t)[0]) == c + Split(t)[0];
    }
  }

  /** The other round trip: splitting the '/'-join of slash-free pieces gives them back. */
  lemma {:induction false} SplitJoin(parts: seq<string>)
    requires |parts| >= 1 && SlashFree(parts)
    ensures Split(Join(parts)) == parts
    decreases |parts|
  {
    SplitSlashFreePrefix(parts[0], "");
    assert parts[0] + "" == parts[0];
    if |parts| == 1 {
      assert Split("") == [""];
      assert parts[0] + Split("")[0] == parts[0];
    } else {
      var tail := "/" + Join(parts[1..]);
      assert Join(parts) == parts[0] + tail;
      SplitSlashFreePrefix(parts[0], tail);
      assert tail[0] == '/' && tail[1..] == Join(parts[1..]);
      SplitJoin(parts[1..]);
      assert Split(tail) == [""] + parts[1..];
      assert parts[0] + Split(tail)[0] == parts[0];
      assert parts == [parts[0]] + parts[1..];
    }
  }

  /** Splitting the string of a path gives back its components. */
  lemma {:induction false} SplitCat(p: Path)
    requires p != [] && SlashFree(p)
    ensures Split(Cat(p)) == [""] + p
  {
    var c, r := p[0], p[1..];
    var s := Cat(p);
    assert s == "/" + (c + Cat(r));
    assert s[1..] == c + Cat(r);
    SplitSlashFreePrefix(c, Cat(r));
    if r == [] {
      assert Split(Cat(r)) == [""];
    } else {
      SplitCat(r);
      assert Split(Cat(r))[0] == "" && Split(Cat(r))[1..] == r;
    }
    assert c + Split(Cat(r))[0] == c;
    assert Split(s[1..]) == [c] + r;
    assert Split(s) == [""] + Split(s[1..]);
    assert p == [c] + r;
  }

  /** Round trip: splitting `str(p)` yields a leading empty piece, then the components. */
  lemma SplitStr(p: Path)
    requires SlashFree(p)
    ensures Split(Str(p)) == [""] + (if p == [] then [""] else p)
  {
    if p == [] {
      assert Split("/"[1..]) == [""];
    } else {
      SplitCat(p);
    }
  }

  /** A true descendant is never rejected by the raw prefix test. */
  lemma DescendantWithinHome(target: Path, home: Path)
    requires IsDescendant(target, home)
    ensures WithinHome(target, home)
  {
    if home != [] {
      assert target == home + target[|home|..];
      CatAppend(home, target[|home|..]);
    }
  }

  /** Dropping a common first character keeps the prefix relation. */
  lemma ConsPrefix(a: char, u: string, v: string)
    ensures [a] + u <= [a] + v <==> u <= v
  {
    if [a] + u <= [a] + v {
      assert u == ([a] + u)[1..] == ([a] + v)[1..|u| + 1] == v[..|u|];
    }
  }

  /** A slash-free name followed by something that starts with '/' is a prefix of
      another such string exactly when the names agree and the tails are prefixes. */
  lemma NamePrefix(c: string, x: string, d: string, y: string)
    requires '/' !in c && '/' !in d
    requires |x| > 0 && x[0] == '/'
    requires y == [] || y[0] == '/'
    ensures c + x <= d + y <==> c == d && x <= y
  {
    if |c| == |d| {
      if c + x <= d + y {
        assert c == (c + x)[..|c|] == (d + y)[..|c|] == d;
        assert x == (c + x)[|c|..] == (d + y)[|c|..|c| + |x|] == y[..|x|];
      }
      if c == d && x <= y {
        assert c + x == (d + y)[..|c + x|];
      }
    } else if |c| < |d| {
      assert (c + x)[|c|] == '/';
      assert (d + y)[|c|] == d[|c|];
      assert (c + x)[|c|] != (d + y)[|c|];
    } else if y == [] {
      assert |c + x| > |d + y|;
    } else {
      assert (c + x)[|d|] == c[|d|];
      assert (d + y)[|d|] == '/';
      assert (c + x)[|d|] != (d + y)[|d|];
    }
  }

  /** The same for a last name with nothing after it. */
  lemma LastNamePrefix(c: string, d: string, y: string)
    requires '/' !in c
    requires y == [] || y[0] == '/'
    ensures c <= d + y <==> c <= d
  {
    if |c| <= |d| {
      if c <= d + y {
        assert c == (d + y)[..|c|] == d[..|c|];
      }
    } else if y == [] {
      assert d + y == d;
    } else {
      assert (d + y)[|d|] == '/';
      assert c[|d|] != (d + y)[|d|];
    }
  }

  /** The component-wise form of "`h` is a prefix of `t` up to its last name". */
  predicate ComponentPrefix(h: Path, t: Path)
    requires h != []
  {
    |h| <= |t| && h[..|h| - 1] == t[..|h| - 1] && h[|h| - 1] <= t[|h| - 1]
  }

  /** Peeling one component off both sides of `ComponentPrefix`. */
  lemma ComponentPrefixCons(h: Path, t: Path)
    requires |h| >= 2 && t != []
    ensures ComponentPrefix(h, t) <==> h[0] == t[0] && ComponentPrefix(h[1..], t[1..])
  {
    var h', r := h[1..], t[1..];
    assert h[..|h| - 1] == [h[0]] + h'[..|h'| - 1];
    assert h[|h| - 1] == h'[|h'| - 1];
    if |h| <= |t| {
      assert t[..|h| - 1] == [t[0]] + r[..|h'| - 1];
      assert t[|h| - 1] == r[|h'| - 1];
      if h[..|h| - 1] == t[..|h| - 1] {
        assert h[0] == h[..|h| - 1][0] == t[..|h| - 1][0] == t[0];
        assert h'[..|h'| - 1] == h[..|h| - 1][1..] == t[..|h| - 1][1..] == r[..|h'| - 1];
      }
    }
  }

  /** A string prefix of a component string, component by component. */
  lemma {:induction false} CatPrefix(h: Path, t: Path)
    requires h != [] && SlashFree(h) && SlashFree(t)
    ensures Cat(h) <= Cat(t) <==> ComponentPrefix(h, t)
  {
    var c, h' := h[0], h[1..];
    assert Cat(h) == ['/'] + (c + Cat(h'));
    if t != [] {
      var d, r := t[0], t[1..];
      assert Cat(t) == ['/'] + (d + Cat(r));
      ConsPrefix('/', c + Cat(h'), d + Cat(r));
      assert r != [] ==> Cat(r)[0] == '/';
      if h' == [] {
        assert c + Cat(h') == c;
        LastNamePrefix(c, d, Cat(r));
        assert h[..|h| - 1] == [] == t[..|h| - 1];
      } else {
        assert Cat(h')[0] == '/';
        NamePrefix(c, Cat(h'), d, Cat(r));
        CatPrefix(h', r);
        ComponentPrefixCons(h, t);
      }
    }
  }

  /** Exactly what the raw prefix test accepts: everything when home is "/";
      otherwise the paths that agree with home on all components but the last,
      and whose component at that position merely begins with home's last. */
  lemma AcceptsIff(target: Path, home: Path)
    requires PlainPath(home) && SlashFree(target)
    ensures WithinHome(target, home) <==>
      home == [] ||
      (|home| <= |target| && target[..|home| - 1] == home[..|home| - 1] &&
       home[|home| - 1] <= target[|home| - 1])
  {
    if home != [] {
      assert PlainName(home[0]);
      if target == [] {
        assert |Str(home)| >= 2 by {
          assert Str(home) == "/" + home[0] + Cat(home[1..]);
        }
      } else {
        CatPrefix(home, target);
      }
    }
  }

  /** The raw prefix test also admits a sibling whose last name merely begins
      with home's last name ("/home/userX2" when home is "/home/userX"). */
  lemma SiblingWithinHome(home: Path, suffix: string, rest: Path)
    requires home != [] && suffix != []
    ensures var k := |home| - 1;
      var sibling := home[..k] + [home[k] + suffix] + rest;
      WithinHome(sibling, home) && !IsDescendant(sibling, home)
  {
    var k := |home| - 1;
    var sibling := home[..k] + [home[k] + suffix] + rest;
    assert home == home[..k] + [home[k]];
    CatAppend(home[..k], [home[k]]);
    CatAppend(home[..k] + [home[k] + suffix], rest);
    CatAppend(home[..k], [home[k] + suffix]);
    assert Cat([home[k] + suffix]) == Cat([home[k]]) + suffix;
    assert sibling[k] != home[k];
  }

  /** The concrete case: home "/home/userX" admits "/home/userX2". */
  lemma SiblingExample()
    ensures Str(["home", "userX"]) == "/home/userX"
    ensures Str(["home", "userX2"]) == "/home/userX2"
    ensures WithinHome(["home", "userX2"], ["home", "userX"])
    ensures !IsDescendant(["home", "userX2"], ["home", "userX"])
  {
    var home: Path := ["home", "userX"];
    assert home[1] + "2" == "userX2";
    assert home[..1] + [home[1] + "2"] + [] == ["home", "userX2"];
    SiblingWithinHome(home, "2", []);
  }
}

=== FILE: tools.dfy ===
/** The sandboxed directory lister `_list_files_impl`: resolve the input, test
    that the resolved path string begins with the home directory string, check
    that it exists and is a directory, collect the names of its entries, sort
    them, and turn every failure into a `ValueError` or a `PermissionError`. */
module Tools {
  import opened Paths
  import opened Filesystem
  import opened Names

  /** The argument may be `None` as well as a string. */
  datatype Option<T> = None | Some(value: T)

  /** The exceptions that can arise inside the `try` block. */
  datatype Exception =
    | ValueError(msg: string)
    | PermissionError(msg: string)
    | TypeError(msg: string)
    | RuntimeError(msg: string)

  /** What the lister returns, or the exception it lets escape. */
  datatype Outcome = Ok(names: seq<string>) | ValueErr(msg: string) | PermErr(msg: string)

  /** The result of the checks that precede the listing. */
  datatype Located = Found(dir: Path) | Raised(exc: Exception)

  const OutsideHome := "Path must be within home directory"
  const DoesNotExist := "Path does not exist"
  const NotADirectory := "Path is not a directory"
  const ErrorListing := "Error listing directory "
  const PermissionDenied := "Permission denied accessing: "
  const NotAPathType := "expected str, bytes or os.PathLike object, not NoneType"

  /** The argument as an f-string prints it. */
  function Display(path: Option<string>): string {
    match path
    case None => "None"
    case Some(raw) => raw
  }

  predicate EndsWith(s: string, suffix: string) {
    |suffix| <= |s| && s[|s| - |suffix|..] == suffix
  }

  predicate PhraseAt(msg: string, phrase: string, i: nat) {
    i + |phrase| <= |msg| && msg[i..i + |phrase|] == phrase
  }

  /** `phrase in msg`. */
  ghost predicate Mentions(msg: string, phrase: string) {
    exists i: nat :: PhraseAt(msg, phrase, i)
  }

  /** The two `except` clauses: a permission failure becomes a `PermissionError`
      naming the argument; anything else becomes a `ValueError` naming the
      argument and carrying the original message at its end. */
  function Rewrap(path: Option<string>, e: Exception): (o: Outcome)
    ensures !o.Ok?
    ensures o.PermErr? <==> e.PermissionError?
    ensures o.PermErr? ==> o.msg == PermissionDenied + Display(path)
    ensures o.ValueErr? ==> StartsWith(o.msg, ErrorListing + Display(path)) && EndsWith(o.msg, e.msg)
  {
    if e.PermissionError? then PermErr(PermissionDenied + Display(path))
    else ValueErr(ErrorListing + Display(path) + ": " + e.msg)
  }

  /** A `ValueError` raised inside the block keeps its message inside the one
      that escapes. */
  lemma RewrapKeepsMessage(path: Option<string>, phrase: string, tail: string)
    ensures Rewrap(path, ValueError(phrase + tail)).ValueErr?
    ensures Mentions(Rewrap(path, ValueError(phrase + tail)).msg, phrase)
  {
    var head := ErrorListing + Display(path) + ": ";
    var msg := Rewrap(path, ValueError(phrase + tail)).msg;
    assert msg == head + (phrase + tail);
    assert PhraseAt(msg, phrase, |head|);
  }

  /** The three checks the resolved path must pass, in their fixed order:
      inside home, exists, is a directory. */
  predicate Admitted(fs: FileSystem, home: Path, target: Path) {
    WithinHome(target, home) && target in fs && fs[target].Dir?
  }

  /** Resolution, then the three checks in their fixed order: outside home,
      does not exist, not a directory. */
  function Locate(fs: FileSystem, home: Path, cwd: Path, path: Option<string>): (r: Located)
    ensures r.Found? <==>
      path.Some? && Resolve(fs, cwd, path.value).Resolved? &&
      Admitted(fs, home, Resolve(fs, cwd, path.value).path)
    ensures r.Found? ==> Resolve(fs, cwd, path.value) == Resolved(r.dir)
    ensures path.None? ==> r == Raised(TypeError(NotAPathType))
  {
    match path
    case None => Raised(TypeError(NotAPathType))
    case Some(raw) =>
      match Resolve(fs, cwd, raw)
      case SymlinkLoop(at) => Raised(RuntimeError("Symlink loop from '" + Str(at) + "'"))
      case Resolved(target) =>
        if !WithinHome(target, home) then
          Raised(ValueError(OutsideHome + " (" + Str(home) + ")"))
        else if target !in fs then
          Raised(ValueError(DoesNotExist + ": " + Str(target)))
        else if !fs[target].Dir? then
          Raised(ValueError(NotADirectory + ": " + Str(target)))
        else
          Found(target)
  }

  /** The failure that enumerating an unreadable directory raises. */
  function Unreadable(dir: Path): Exception {
    PermissionError("[Errno 13] Permission denied: '" + Str(dir) + "'")
  }

  /** What a call of the lister returns or raises. */
  function Expected(fs: FileSystem, home: Path, cwd: Path, path: Option<string>): (o: Outcome)
    ensures o.Ok? <==> Locate(fs, home, cwd, path).Found? && fs[Locate(fs, home, cwd, path).dir].readable
    ensures o.Ok? ==> Sorted(o.names)
    ensures o.Ok? ==> multiset(o.names) == multiset(fs[Locate(fs, home, cwd, path).dir].entries)
    ensures o.ValueErr? ==> StartsWith(o.msg, ErrorListing + Display(path))
    ensures path.None? ==> o.ValueErr?
  {
    match Locate(fs, home, cwd, path)
    case Raised(e) => Rewrap(path, e)
    case Found(dir) =>
      if fs[dir].readable then Ok(SortedNames(fs[dir].entries))
      else Rewrap(path, Unreadable(dir))
  }

  /** `_list_files_impl(path)` with home directory `home` and working directory
      `cwd`. The filesystem is a value: the call cannot change it. */
  method ListFiles(fs: FileSystem, home: Path, cwd: Path, path: Option<string>) returns (out: Outcome)
    ensures out == Expected(fs, home, cwd, path)
  {
    var located := Locate(fs, home, cwd, path);
    if located.Raised? {
      return Rewrap(path, located.exc);
    }
    var node := fs[located.dir];
    if !node.readable {
      return Rewrap(path, Unreadable(located.dir));
    }
    var contents: seq<string> := [];
    var i := 0;
    while i < |node.entries|
      invariant 0 <= i <= |node.entries|
      invariant contents == node.entries[..i]
    {
      contents := contents + [node.entries[i]];
      i := i + 1;
    }
    assert contents == node.entries;
    contents := SortedNames(contents);
    return Ok(contents);
  }

  /** The sorted names of a directory are exactly its immediate children, each once. */
  lemma ChildrenOfDirectory(fs: FileSystem, dir: Path, names: seq<string>)
    requires WellFormed(fs) && dir in fs && fs[dir].Dir?
    requires multiset(names) == multiset(fs[dir].entries)
    ensures forall n :: n in names <==> dir + [n] in fs
    ensures NoDuplicates(names)
  {
    var entries := fs[dir].entries;
    forall n
      ensures n in names <==> dir + [n] in fs
    {
      assert n in names <==> n in multiset(names);
      assert n in entries <==> n in multiset(entries);
      if n in entries {
        assert dir + [n] in fs;
      }
      if dir + [n] in fs {
        var q := dir + [n];
        assert q != [] && Parent(q) == dir && q[|q| - 1] == n;
        assert n in fs[Parent(q)].entries;
      }
    }
    forall n
      ensures multiset(names)[n] <= 1
    {
      assert multiset(entries)[n] <= 1;
    }
    NoDuplicatesFromCounts(names);
  }

  /** On success the names are exactly those of the immediate children of the
      resolved directory, each once. */
  lemma ListingIsExactChildren(fs: FileSystem, home: Path, cwd: Path, path: Option<string>)
    requires WellFormed(fs)
    requires Expected(fs, home, cwd, path).Ok?
    ensures var names := Expected(fs, home, cwd, path).names;
      var dir := Locate(fs, home, cwd, path).dir;
      (forall n :: n in names <==> dir + [n] in fs) && NoDuplicates(names)
  {
    ChildrenOfDirectory(fs, Locate(fs, home, cwd, path).dir, Expected(fs, home, cwd, path).names);
  }

  /** A path that resolves to a readable directory passing all three checks is
      listed: its entries, sorted. */
  lemma AdmittedListed(fs: FileSystem, home: Path, cwd: Path, raw: string, target: Path)
    requires Resolve(fs, cwd, raw) == Resolved(target)
    requires Admitted(fs, home, target) && fs[target].readable
    ensures Expected(fs, home, cwd, Some(raw)) == Ok(SortedNames(fs[target].entries))
  {
  }

  /** A resolved path whose string does not begin with home's is refused with
      the containment message, whatever exists there. */
  lemma OutsideHomeRejected(fs: FileSystem, home: Path, cwd: Path, raw: string)
    requires Resolve(fs, cwd, raw).Resolved? && !WithinHome(Resolve(fs, cwd, raw).path, home)
    ensures Expected(fs, home, cwd, Some(raw)).ValueErr?
    ensures Mentions(Expected(fs, home, cwd, Some(raw)).msg, OutsideHome)
  {
    var tail := " (" + Str(home) + ")";
    assert OutsideHome + " (" + Str(home) + ")" == OutsideHome + tail;
    assert Locate(fs, home, cwd, Some(raw)) == Raised(ValueError(OutsideHome + tail));
    RewrapKeepsMessage(Some(raw), OutsideHome, tail);
  }

  /** A path that resolves outside home never reveals whether it exists or what
      it is: two filesystems with the same symlinks give the same outcome. */
  lemma OutsideRevealsNothing(fs: FileSystem, fs': FileSystem, home: Path, cwd: Path, raw: string)
    requires SameLinks(fs, fs')
    requires Resolve(fs, cwd, raw).Resolved? && !WithinHome(Resolve(fs, cwd, raw).path, home)
    ensures Expected(fs, home, cwd, Some(raw)) == Expected(fs', home, cwd, Some(raw))
  {
    WalkReadsOnlyLinks(fs, fs', if IsAbsolute(raw) then [] else cwd, Split(raw), MaxSymlinkDepth);
  }

  /** Inside home, a path that does not exist is refused as missing. */
  lemma MissingRejected(fs: FileSystem, home: Path, cwd: Path, raw: string)
    requires Resolve(fs, cwd, raw).Resolved?
    requires WithinHome(Resolve(fs, cwd, raw).path, home)
    requires Resolve(fs, cwd, raw).path !in fs
    ensures Expected(fs, home, cwd, Some(raw)).ValueErr?
    ensures Mentions(Expected(fs, home, cwd, Some(raw)).msg, DoesNotExist)
  {
    var tail := ": " + Str(Resolve(fs, cwd, raw).path);
    assert DoesNotExist + ": " + Str(Resolve(fs, cwd, raw).path) == DoesNotExist + tail;
    assert Locate(fs, home, cwd, Some(raw)) == Raised(ValueError(DoesNotExist + tail));
    RewrapKeepsMessage(Some(raw), DoesNotExist, tail);
  }

  /** Inside home, an existing entry that is not a directory is refused as such. */
  lemma NotADirectoryRejected(fs: FileSystem, home: Path, cwd: Path, raw: string)
    requires Resolve(fs, cwd, raw).Resolved?
    requires WithinHome(Resolve(fs, cwd, raw).path, home)
    requires Resolve(fs, cwd, raw).path in fs && !fs[Resolve(fs, cwd, raw).path].Dir?
    ensures Expected(fs, home, cwd, Some(raw)).ValueErr?
    ensures Mentions(Expected(fs, home, cwd, Some(raw)).msg, NotADirectory)
  {
    var tail := ": " + Str(Resolve(fs, cwd, raw).path);
    assert NotADirectory + ": " + Str(Resolve(fs, cwd, raw).path) == NotADirectory + tail;
    assert Locate(fs, home, cwd, Some(raw)) == Raised(ValueError(NotADirectory + tail));
    RewrapKeepsMessage(Some(raw), NotADirectory, tail);
  }

  /** An unreadable directory inside home is a permission failure naming the argument. */
  lemma UnreadableRejected(fs: FileSystem, home: Path, cwd: Path, raw: string)
    requires Resolve(fs, cwd, raw).Resolved?
    requires WithinHome(Resolve(fs, cwd, raw).path, home)
    requires Resolve(fs, cwd, raw).path in fs
    requires fs[Resolve(fs, cwd, raw).path].Dir? && !fs[Resolve(fs, cwd, raw).path].readable
    ensures Expected(fs, home, cwd, Some(raw)) == PermErr(PermissionDenied + raw)
  {
  }

  /** A symlink inside home that points at "/" is refused: the test runs on the
      resolved path, not on the name the link has inside home. */
  lemma SymlinkToRootRejected(fs: FileSystem, home: Path, cwd: Path, link: string)
    requires home != [] && PlainPath(home) && SymlinkFree(fs, home)
    requires PlainName(link) && home + [link] in fs && fs[home + [link]] == Symlink("/")
    ensures Expected(fs, home, cwd, Some(Str(home + [link]))).ValueErr?
    ensures Mentions(Expected(fs, home, cwd, Some(Str(home + [link]))).msg, OutsideHome)
  {
    var raw := Str(home + [link]);
    ResolveStrFrom(fs, cwd, home, [link]);
    RootString(fs, cwd);
    assert Walk(fs, [], Split("/"), MaxSymlinkDepth - 1) == Resolved([]);
    assert [link][1..] == [];
    assert Walk(fs, home, [link], MaxSymlinkDepth) == Resolved([]);
    AcceptsIff([], home);
    OutsideHomeRejected(fs, home, cwd, raw);
  }

  /** `str(HOME_DIR)` itself is listed, when home is a canonical, readable directory. */
  lemma HomeListed(fs: FileSystem, home: Path, cwd: Path)
    requires PlainPath(home) && SymlinkFree(fs, home)
    requires home in fs && fs[home].Dir? && fs[home].readable
    ensures Expected(fs, home, cwd, Some(Str(home))) == Ok(SortedNames(fs[home].entries))
  {
    ResolveStr(fs, cwd, home);
  }

  /** With the working directory at home, "." and the empty string list home. */
  lemma DotListsWorkingDirectory(fs: FileSystem, home: Path, raw: string)
    requires raw == "." || raw == ""
    requires PlainPath(home) && SymlinkFree(fs, home)
    requires home in fs && fs[home].Dir? && fs[home].readable
    ensures Expected(fs, home, home, Some(raw)) == Ok(SortedNames(fs[home].entries))
  {
    DotString(fs, home, raw);
  }

  lemma DotsSlashFree(n: nat, q: Path)
    requires PlainPath(q)
    ensures SlashFree(Dots(n) + q)
  {
  }

  /** Climbing above home with ".." is refused: `str(HOME_DIR)` followed by at
      least as many "/.." as home has components, then a shorter canonical path. */
  lemma TraversalRejected(fs: FileSystem, home: Path, cwd: Path, n: nat, q: Path)
    requires home != [] && PlainPath(home) && SymlinkFree(fs, home)
    requires n >= |home|
    requires PlainPath(q) && SymlinkFree(fs, q) && |q| < |home|
    ensures Expected(fs, home, cwd, Some(Str(home + (Dots(n) + q)))).ValueErr?
    ensures Mentions(Expected(fs, home, cwd, Some(Str(home + (Dots(n) + q)))).msg, OutsideHome)
  {
    var raw := Str(home + (Dots(n) + q));
    DotsSlashFree(n, q);
    ResolveStrFrom(fs, cwd, home, Dots(n) + q);
    WalkDots(fs, home, n, q, MaxSymlinkDepth);
    assert Up(home, n) == [];
    assert [] + q == q && q + [] == q;
    WalkPlain(fs, [], q, [], MaxSymlinkDepth);
    assert Resolve(fs, cwd, raw) == Resolved(q);
    AcceptsIff(q, home);
    OutsideHomeRejected(fs, home, cwd, raw);
  }

  /** `str(HOME_DIR) + "/../" + n` is the string of the path home, "..", `n`. */
  lemma ParentEntryString(home: Path, n: string)
    requires home != []
    ensures Str(home) + "/../" + n == Str(home + ["..", n])
  {
    CatAppend(home, ["..", n]);
    assert ["..", n][1..] == [n] && [n][1..] == [];
    assert Cat([n]) == "/" + n + Cat([]);
    assert Cat([n]) == "/" + n;
    assert Cat(["..", n]) == "/" + ".." + Cat([n]);
    assert "/" + ".." + ("/" + n) == "/../" + n;
  }

  /** `str(HOME_DIR) + "/../" + n` climbs out of home to the entry `n` beside it.
      The raw prefix test refuses it exactly when `n` does not begin with home's
      own last name; then the call fails with the containment message. */
  lemma ParentEntryTraversal(fs: FileSystem, home: Path, cwd: Path, n: string)
    requires home != [] && PlainPath(home) && SymlinkFree(fs, home)
    requires PlainName(n) && SymlinkFree(fs, Parent(home) + [n])
    ensures Resolve(fs, cwd, Str(home) + "/../" + n) == Resolved(Parent(home) + [n])
    ensures WithinHome(Parent(home) + [n], home) <==> home[|home| - 1] <= n
    ensures !(home[|home| - 1] <= n) ==>
      Expected(fs, home, cwd, Some(Str(home) + "/../" + n)).ValueErr? &&
      Mentions(Expected(fs, home, cwd, Some(Str(home) + "/../" + n)).msg, OutsideHome)
  {
    var raw := Str(home) + "/../" + n;
    var target := Parent(home) + [n];
    ParentEntryString(home, n);
    ResolveStrFrom(fs, cwd, home, ["..", n]);
    assert ["..", n][0] == ".." && ["..", n][1..] == [n];
    assert [n] + [] == [n];
    WalkPlain(fs, Parent(home), [n], [], MaxSymlinkDepth);
    assert Resolve(fs, cwd, raw) == Resolved(target);
    AcceptsIff(target, home);
    assert target[..|home| - 1] == Parent(home) == home[..|home| - 1];
    if !(home[|home| - 1] <= n) {
      OutsideHomeRejected(fs, home, cwd, raw);
    }
  }

  /** With HOME_DIR at "/root", `str(HOME_DIR) + "/../root"` is home itself and
      is listed, not refused. */
  lemma RootHomeTraversalListed(fs: FileSystem, cwd: Path)
    requires ["root"] in fs && fs[["root"]].Dir? && fs[["root"]].readable
    requires SymlinkFree(fs, ["root"])
    ensures Expected(fs, ["root"], cwd, Some("/root" + "/../root")) ==
      Ok(SortedNames(fs[["root"]].entries))
  {
    var home: Path := ["root"];
    assert Parent(home) + ["root"] == home;
    assert Str(home) == "/root";
    assert "/root" + "/../root" == Str(home) + "/../" + "root";
    ParentEntryTraversal(fs, home, cwd, "root");
    LastNamePrefix("root", "root", "");
  }

  /** Because the containment test is a raw string prefix, a sibling of home whose
      name merely begins with home's last name ("/home/userX2" for "/home/userX")
      is listed, although it is not inside home. */
  lemma SiblingListed(fs: FileSystem, home: Path, cwd: Path, suffix: string)
    requires home != [] && PlainPath(home)
    requires suffix != [] && '/' !in suffix
    requires var k := |home| - 1; var sibling := home[..k] + [home[k] + suffix];
      SymlinkFree(fs, sibling) && sibling in fs && fs[sibling].Dir? && fs[sibling].readable
    ensures var k := |home| - 1; var sibling := home[..k] + [home[k] + suffix];
      !IsDescendant(sibling, home) &&
      Expected(fs, home, cwd, Some(Str(sibling))) == Ok(SortedNames(fs[sibling].entries))
  {
    var k := |home| - 1;
    var sibling := home[..k] + [home[k] + suffix];
    assert PlainName(home[k]);
    assert PlainName(home[k] + suffix) by {
      assert |home[k] + suffix| >= 2;
      assert (home[k] + suffix)[..|home[k]|] == home[k];
    }
    assert PlainPath(sibling) by {
      forall i | 0 <= i < |sibling| ensures PlainName(sibling[i]) {
        if i < k { assert sibling[i] == home[i]; }
      }
    }
    SiblingWithinHome(home, suffix, []);
    assert sibling + [] == sibling;
    ResolveStr(fs, cwd, sibling);
  }

  /** A path with no symlink on any prefix cannot pass the prefix test against a
      home that has one. */
  lemma LinkedHomeRefuses(fs: FileSystem, target: Path, home: Path, k: nat)
    requires SymlinkFree(fs, target) && PlainPath(target)
    requires PlainPath(home) && k < |home| && IsLink(fs, home[..k])
    ensures !WithinHome(target, home)
  {
    AcceptsIff(target, home);
    if |home| <= |target| {
      assert !IsLink(fs, target[..k]);
      assert target[..k] != home[..k];
      assert target[..|home| - 1][..k] == target[..k];
      assert home[..|home| - 1][..k] == home[..k];
    }
  }

  /** `Path.home()` is not resolved. When a proper prefix of home is a symlink
      (as /home is on some systems), no resolved path can pass the prefix test,
      so every input is refused, `str(HOME_DIR)` included. */
  lemma LinkedHomeRefusesAll(fs: FileSystem, home: Path, cwd: Path, path: Option<string>, k: nat)
    requires !IsLink(fs, []) && SymlinkFree(fs, cwd) && PlainPath(cwd)
    requires PlainPath(home) && k < |home| && IsLink(fs, home[..k])
    ensures !Locate(fs, home, cwd, path).Found?
    ensures !Expected(fs, home, cwd, path).Ok?
  {
    if path.Some? && Resolve(fs, cwd, path.value).Resolved? {
      ResolveCanonical(fs, cwd, path.value);
      LinkedHomeRefuses(fs, Resolve(fs, cwd, path.value).path, home, k);
    }
  }

  /** Every result of resolution from a canonical working directory that passes
      the containment test is canonical: no symlink survives to the listing. */
  lemma FoundIsCanonical(fs: FileSystem, home: Path, cwd: Path, path: Option<string>)
    requires WellFormed(fs) && SymlinkFree(fs, cwd) && PlainPath(cwd)
    requires Locate(fs, home, cwd, path).Found?
    ensures SymlinkFree(fs, Locate(fs, home, cwd, path).dir)
    ensures PlainPath(Locate(fs, home, cwd, path).dir)
  {
    ResolveCanonical(fs, cwd, path.value);
  }
}
